=== FILE: README.md ===
# Asset-loading tracker of the Saraswati Pooja WebVR page

This project models the asset-loading tracker of `js/asset-loader.js`, the only part of the page
with control logic. When the page loads, the tracker:

- watches three assets: the panorama image, the 3D model with its fallback chain, and the
  background audio;
- counts each success, error or timeout in the `assetStatus` record;
- writes a rounded percentage to the loading screen. The model keeps every percentage written
  to the progress text, oldest first; the page displays only the last one, with a '%' suffix;
- calls `finalizeLoading` once the count reaches `totalAssets` (3), or when the force-start
  button or the 15 s ceiling timer asks for it. `finalizeLoading` forces every asset still
  unflagged through `assetLoaded`, fades the loading screen out, and removes it 500 ms later.

The model has two layers.

- **Specification functions.** `Tracker` and `Events` give each handler as a function from the
  state before it runs to the state after it has run to completion. `Tracker` covers the chain
  `assetLoaded` / `assetError` → `updateProgress` → `finalizeLoading`, which is mutually
  recursive because `finalizeLoading` calls `assetLoaded` again. `Events` covers the listeners
  and timers.
- **The loader object.** `AssetLoader.Loader` is a class whose fields are the `assetStatus`
  record and what the handlers write to the page. Each handler is a method, proved to leave the
  fields exactly as the matching function says. Each handler the host can run also keeps
  `Invariant.Inv`.

The host environment (event loop, timers) is a parameter of the model:

- any listener may fire at any time, and one that was never registered does nothing. The
  exception is the scene's 'loaded' listener, which fires once, so `loadMainModel` runs at most
  once;
- each scheduled timer fires at most once, at any time after it was scheduled;
- an event sequence is a `seq<Event>` run by `Events.Run`.

The model follows the code as written, not the intended design.

- An asset may be counted more than once. `assetError` counts the asset but never sets its flag,
  so a timeout that checks the flag counts the asset again. With several `loadFallbackModel`
  runs, one fallback event also runs every stacked listener.
- `finalizeLoading` may run more than once, and may run inside itself.
- The main model's `model-error` listener and its timeout can both start the fallback stage.

So the model does not claim that the count never exceeds 3, or that finalization happens once.
It proves the weaker properties the code does keep:

- the count reaches 3 exactly when `finalizeLoading` has run;
- at that point all three flags are set;
- every flag set and every error recorded was counted;
- the percentages on the loading screen never go down.

It also exhibits event orders on which the stronger claims fail: `Scenarios.AudioCountedTwice`,
`Scenarios.CountExceedsTotal`, `Scenarios.FinalizeReenters` and `Scenarios.FallbackStartedTwice`.
The orders in `AudioCountedTwice` and `CountExceedsTotal` can also happen with the real timer
durations: the 5 s audio timeout starts at the scene's 'loaded' event, so it can fire before
the 15 s ceiling timer.

## Model

| member | source | states |
|---|---|---|
| Progress.Percent | js/asset-loader.js:45 | the percentage is the count times 100 / 3 rounded half up: `200·n − 3 < 6·p ≤ 200·n + 3` |
| Progress.PercentSteps | js/asset-loader.js:45 | counts 0, 1, 2, 3 show 0, 33, 67 and 100 |
| Progress.PercentMonotone | js/asset-loader.js:45 | a larger count never shows a smaller percentage |
| Progress.PercentFull | js/asset-loader.js:45-53 | the percentage is at least 100 iff the count reached totalAssets (the finalize condition), and over 100 once the count exceeds it |
| Progress.Shown | js/asset-loader.js:44-50 | the percentages written while the count goes from `from` to `to`: one per count |
| Progress.ShownAt | js/asset-loader.js:44-50 | the i-th percentage written is that of count from + i + 1 |
| Progress.ShownSplit | js/asset-loader.js:44-50 | the writes for a..b followed by those for b..c are the writes for a..c |
| Progress.ShownSorted | js/asset-loader.js:44-50 | the written percentages are non-decreasing |
| Tracker.Mark | js/asset-loader.js:60 | `assetStatus[type] = true` sets exactly that flag and leaves count and errors alone |
| Tracker.Show | js/asset-loader.js:45-50 | with the progress element present the current count's percentage is appended to the writes to the progress text, otherwise nothing changes; record, host and the rest of the screen are untouched |
| Tracker.Count | js/asset-loader.js:60-61 | the asset's flag is set, no flag is cleared, as many flags are unset as after marking the asset (one fewer when its flag was unset, the same when it was already set), the count rises by exactly one; errors, screen and host are untouched |
| Tracker.CreateSimpleBox | js/asset-loader.js:212-226 | exactly one more placeholder box; record, host and the rest of the screen are untouched |
| Tracker.HideOverlay | js/asset-loader.js:240-242 | the loading screen's opacity is 0 and one more reveal timer is pending; nothing else changes |
| Tracker.ShowsCountsTrans | js/asset-loader.js:44-50 | the percentages written across two steps are those for every count the two steps passed |
| Tracker.UpdateProgress | js/asset-loader.js:44-57 | below the total it only writes the percentage; at or above it finalizeLoading runs (and only then): all flags set, screen faded, count raised by the unset flags, a box iff the model was unset; it writes the percentage then one per further count; host and errors untouched |
| Tracker.AssetLoaded | js/asset-loader.js:59-63 | sets the asset's flag and counts it; finalizes iff the new count reaches the total, with the same consequences as UpdateProgress; writes one percentage per count passed |
| Tracker.Force | js/asset-loader.js:231-237 | one forcing line: no change if the flag is set, else the flag gets set (after a box, for the model); count + unset flags is unchanged; a nested finalize happens iff that count reaches the total |
| Tracker.FinalizeLoading | js/asset-loader.js:228-264 | afterwards all three flags are set, the loading screen is faded, at least one more run is recorded (more when a forcing line re-enters it), the count rose by the number of unset flags, a box was created iff the model was unset, and one reveal timer per run is pending |
| Tracker.AssetError | js/asset-loader.js:65-71 | appends (type, error), sets hasErrors, counts the asset without setting its flag; below the total nothing else changes, at the total finalizeLoading runs |
| Events.Start | js/asset-loader.js:2-102 | empty record and ceiling timer scheduled; with the panorama element its timeout is scheduled, without it the panorama is counted as an error "Element not found" |
| Events.OnPanoramaLoad | js/asset-loader.js:78-82 | the sky source becomes `#panorama` and the panorama is flagged and counted; no change without the element |
| Events.OnPanoramaError | js/asset-loader.js:84-89 | the sky gets the fallback colour and the error is recorded and counted; the flag stays unset below the total |
| Events.OnPanoramaTimeout | js/asset-loader.js:92-98 | the timer is gone; nothing else if the flag is set, otherwise fallback colour and the panorama is flagged and counted |
| Events.LoadMainModel | js/asset-loader.js:146-176 | the main model's timeout is scheduled; record and screen untouched (its listeners are those `sceneLoaded` enables) |
| Events.OnSceneLoaded | js/asset-loader.js:105-144 | loadMainModel runs; with the audio element its timeout is scheduled and the record is untouched, without it the audio is recorded as "Element not found" |
| Events.OnMainModelLoad | js/asset-loader.js:153-161 | once the scene has loaded, the model is flagged and counted |
| Events.LoadFallbackModel | js/asset-loader.js:178-210 | one more listener pair on the fallback entity and one more fallback timeout; record untouched |
| Events.OnMainModelError | js/asset-loader.js:164-167 | before the scene's 'loaded' event nothing changes; after it the record and screen are untouched and the fallback stage starts (again): one more listener pair and one more fallback timeout |
| Events.OnMainModelTimeout | js/asset-loader.js:170-175 | the timer is gone; with the model flag set nothing else changes; with it unset the record and screen are untouched and exactly one more fallback stage (listener pair and timeout) starts |
| Events.LoadedTimes | js/asset-loader.js:190-193 | k listeners running assetLoaded('model') count at least k and flag the model; no listener changes nothing |
| Events.OnFallbackModelLoad | js/asset-loader.js:190-193 | every registered fallback listener counts the model, so the count rises by at least the number of loadFallbackModel runs; before any run the event changes nothing |
| Events.FallbackFailed | js/asset-loader.js:196-200 | one listener creates a box and records "All models failed" |
| Events.FailedTimes | js/asset-loader.js:196-200 | k listeners append exactly k entries ("model", "All models failed"), create at least k boxes (a nested finalize may add one) and add at least k counts; no listener changes nothing |
| Events.OnFallbackModelError | js/asset-loader.js:196-200 | one entry ("model", "All models failed") appended and at least one box per registered fallback listener; before any loadFallbackModel run the event changes nothing |
| Events.OnFallbackTimeout | js/asset-loader.js:203-209 | the timer is gone; nothing else changes if the model flag is set, otherwise a box and the error "Fallback model timeout" counted |
| Events.OnAudioCanPlay | js/asset-loader.js:123-126 | with the listener registered, the audio is flagged and counted |
| Events.OnAudioError | js/asset-loader.js:128-131 | with the listener registered, the error is recorded and counted |
| Events.OnAudioTimeout | js/asset-loader.js:134-139 | the timer is gone; nothing else if the flag is set, otherwise the audio is flagged and counted |
| Events.OnForceStart | js/asset-loader.js:36-41 | with the button present, finalizeLoading runs: all flags set |
| Events.OnCeilingTimeout | js/asset-loader.js:267-272 | the timer is gone; unless the loading screen was removed, finalizeLoading runs and every flag ends set |
| Events.OnReveal | js/asset-loader.js:242-250 | the loading screen is removed and one pending reveal consumed; the record is untouched |
| Events.Run | js/asset-loader.js:2-273 | the host delivering a sequence of events: a completed run keeps flags set, never lowers the count, only appends errors and keeps the page; a result means the first event could be delivered |
| Events.RunDelivers | js/asset-loader.js:2-273 | a run completes iff every event can be delivered in the state the events before it leave |
| Events.Step | js/asset-loader.js:2-273 | any handler keeps flags set, never lowers the count, only appends errors and keeps the page |
| Invariant.Inv | js/asset-loader.js:9-272 | the invariant between handler runs: hasErrors iff errors is non-empty; with the progress element present the writes to the progress text are one percentage per count 1..loadedAssets, otherwise there are none; every set flag and every recorded error was counted; finalizeLoading ran iff the count reached 3 (then every flag is set) and iff the screen's opacity is 0; pending reveals never exceed finalize runs and removal needs one; live fallback timeouts never exceed loadFallbackModel runs; panorama and audio timeouts exist only with their elements; before the scene's 'loaded' no model or audio timer and no fallback stage. Its contract: errors never outnumber the count, and there is one written percentage per count |
| Invariant.ShownInOrder | js/asset-loader.js:44-50 | under the invariant the percentages written to the progress text are non-decreasing |
| Invariant.ShownExtends | js/asset-loader.js:44-50 | a step that writes one percentage per count passed keeps "the text is every count's percentage" |
| Invariant.LoadedKeepsInv | js/asset-loader.js:59-63 | assetLoaded keeps the invariant |
| Invariant.ErrorKeepsInv | js/asset-loader.js:65-71 | assetError keeps the invariant |
| Invariant.FinalizeKeepsInv | js/asset-loader.js:228-264 | finalizeLoading keeps the invariant |
| Invariant.LoadedTimesKeepsInv | js/asset-loader.js:190-193 | any number of stacked fallback 'model-loaded' listeners keep the invariant |
| Invariant.FailedTimesKeepsInv | js/asset-loader.js:196-200 | any number of stacked fallback 'model-error' listeners keep the invariant |
| Invariant.StartInv | js/asset-loader.js:2-102 | the state after DOMContentLoaded satisfies the invariant |
| Invariant.PanoramaKeepsInv | js/asset-loader.js:78-98 | the panorama listeners and timeout keep the invariant |
| Invariant.MainModelKeepsInv | js/asset-loader.js:105-176 | the scene and main model handlers keep the invariant |
| Invariant.FallbackKeepsInv | js/asset-loader.js:190-200 | the fallback entity's events keep the invariant |
| Invariant.FallbackTimeoutKeepsInv | js/asset-loader.js:203-209 | the fallback timeout keeps the invariant |
| Invariant.AudioKeepsInv | js/asset-loader.js:123-139 | the audio listeners and timeout keep the invariant |
| Invariant.FinishKeepsInv | js/asset-loader.js:228-272 | force start, the ceiling timer and the reveal timer keep the invariant |
| Invariant.StepKeepsInv | js/asset-loader.js:2-273 | every handler the host can run keeps the invariant |
| Invariant.StepExtendsShown | js/asset-loader.js:44-50 | no handler takes text back: the old progress writes are a prefix of the new |
| Invariant.RunKeepsInv | js/asset-loader.js:2-273 | over any event sequence the invariant holds and flags, count, errors, the written percentages and the percentage only grow |
| Invariant.Reachable | js/asset-loader.js:2-273 | from page load, whatever the host delivers: the invariant holds, the percentages shown never go down, the count reached 3 iff finalizeLoading ran, and then all flags are set |
| Scenarios.AudioCountedTwice | js/asset-loader.js:128-139 | an audio 'error' followed by the audio timeout counts the audio twice and flags it |
| Scenarios.FinalizeReenters | js/asset-loader.js:228-237 | with a flag unset and the count one short, finalizeLoading runs itself again before it returns |
| Scenarios.PanoramaErrorAtTwo | js/asset-loader.js:84-89 | a panorama 'error' at count 2 with the panorama and the model unflagged ends at count 5 with at least two more finalizeLoading runs |
| Scenarios.AudioTwiceFromStart | js/asset-loader.js:105-139 | from page load, the scene's 'loaded', an audio 'error' and the audio timeout leave the count at 2 with only the audio flagged |
| Scenarios.CountExceedsTotal | js/asset-loader.js:84-142 | scene loaded, audio error, audio timeout, panorama error: the count ends at 5 and finalizeLoading has run at least twice |
| Scenarios.FallbackStartedTwice | js/asset-loader.js:164-193 | main model error then main model timeout start the fallback twice, and one fallback 'model-loaded' then counts the model twice |
| Scenarios.CeilingForcesAll | js/asset-loader.js:266-272 | after the ceiling timer every flag is set, the count reached 3 and finalizeLoading ran, whatever came before |
| Scenarios.AudioTimeoutAfterLoad | js/asset-loader.js:123-139 | the audio timeout after 'canplaythrough' changes neither the record nor the screen |
| AssetLoader.Loader.constructor | js/asset-loader.js:2-102 | the new object is in the state Events.Start gives and satisfies the invariant |
| AssetLoader.Loader.UpdateProgress | js/asset-loader.js:44-57 | the fields end as Tracker.UpdateProgress says |
| AssetLoader.Loader.AssetLoaded | js/asset-loader.js:59-63 | the fields end as Tracker.AssetLoaded says |
| AssetLoader.Loader.AssetError | js/asset-loader.js:65-71 | the fields end as Tracker.AssetError says |
| AssetLoader.Loader.CreateSimpleBox | js/asset-loader.js:212-226 | one more placeholder box, nothing else changes |
| AssetLoader.Loader.Force | js/asset-loader.js:231-237 | the fields end as Tracker.Force says |
| AssetLoader.Loader.FinalizeLoading | js/asset-loader.js:228-264 | the fields end as Tracker.FinalizeLoading says |
| AssetLoader.Loader.HideOverlay | js/asset-loader.js:239-243 | the loading screen's opacity is 0 and one more reveal timer is pending |
| AssetLoader.Loader.PanoramaLoad | js/asset-loader.js:78-82 | fields as Events.OnPanoramaLoad says; the invariant is kept |
| AssetLoader.Loader.PanoramaError | js/asset-loader.js:84-89 | fields as Events.OnPanoramaError says; the invariant is kept |
| AssetLoader.Loader.PanoramaTimeout | js/asset-loader.js:92-98 | fields as Events.OnPanoramaTimeout says; the invariant is kept |
| AssetLoader.Loader.LoadMainModel | js/asset-loader.js:146-176 | fields as Events.LoadMainModel says |
| AssetLoader.Loader.SceneLoaded | js/asset-loader.js:105-144 | fields as Events.OnSceneLoaded says; the invariant is kept |
| AssetLoader.Loader.MainModelLoad | js/asset-loader.js:153-161 | fields as Events.OnMainModelLoad says; the invariant is kept |
| AssetLoader.Loader.LoadFallbackModel | js/asset-loader.js:178-210 | fields as Events.LoadFallbackModel says |
| AssetLoader.Loader.MainModelError | js/asset-loader.js:164-167 | fields as Events.OnMainModelError says; the invariant is kept |
| AssetLoader.Loader.MainModelTimeout | js/asset-loader.js:170-175 | fields as Events.OnMainModelTimeout says; the invariant is kept |
| AssetLoader.Loader.FallbackModelLoad | js/asset-loader.js:190-193 | one run of assetLoaded('model') per registered listener, as Events.OnFallbackModelLoad says; the invariant is kept |
| AssetLoader.Loader.FallbackModelError | js/asset-loader.js:196-200 | one box and one assetError per registered listener, as Events.OnFallbackModelError says; the invariant is kept |
| AssetLoader.Loader.FallbackTimeout | js/asset-loader.js:203-209 | fields as Events.OnFallbackTimeout says; the invariant is kept |
| AssetLoader.Loader.AudioCanPlay | js/asset-loader.js:123-126 | fields as Events.OnAudioCanPlay says; the invariant is kept |
| AssetLoader.Loader.AudioError | js/asset-loader.js:128-131 | fields as Events.OnAudioError says; the invariant is kept |
| AssetLoader.Loader.AudioTimeout | js/asset-loader.js:134-139 | fields as Events.OnAudioTimeout says; the invariant is kept |
| AssetLoader.Loader.ForceStartClick | js/asset-loader.js:36-41 | fields as Events.OnForceStart says; the invariant is kept |
| AssetLoader.Loader.CeilingTimeout | js/asset-loader.js:267-272 | fields as Events.OnCeilingTimeout says; the invariant is kept |
| AssetLoader.Loader.RevealTimeout | js/asset-loader.js:242-250 | fields as Events.OnReveal says; the invariant is kept |

## Left out

- Console logging is not modelled; it has no effect on state.
- The DEBUG branch (lines 5-6 and 109-115) is not modelled, because DEBUG is the constant false.
- Modelled DOM writes: the sky's source and colour, the progress text, the loading screen's
  opacity and removal, and the count of placeholder boxes. Left out: the model entities'
  visible/scale/gltf-model attributes, the box's geometry and animation, and the scene's
  visibility; the tracker never reads them back.
- The force-start button's show timer (lines 29-33) is not modelled; it only changes the
  button's display.
- Particle effects started by the reveal timer (lines 253-262) are not modelled; they come from
  the AFRAME particle system, which is not part of this model.
- Timer durations and real time are not modelled. A timer may fire at any point after it was
  scheduled, so orders that real durations would rule out are still covered.
- Error payloads are modelled as strings. The browser's error event objects are opaque here.
- The `scene`, `loadingScreen`, `backgroundSky`, `saraswatiModel` and `fallbackModel` elements
  are assumed present. The code dereferences them without a check, and a missing one throws.
  The missing elements that are handled are modelled: the panorama image, the audio element,
  the progress text and the force-start button.
- Floating point is not modelled. For three assets the percentage never falls on a .5 boundary,
  so integer half-up rounding gives the same value as Math.round on the double.
- js/main.js and js/particle-system.js are not part of this model: they handle UI glue and
  rendering, not the loading state.

=== FILE: events.dfy ===
/** The event and timer handlers of js/asset-loader.js, each as the state after it
    has run to completion. The host may fire any listener at any time (a listener
    that was never registered does nothing); each scheduled timer fires at most once,
    which the timer handlers require. */
module Events {
  import opened Progress
  import opened Tracker

  datatype Option<T> = None | Some(value: T)

  /** The DOMContentLoaded handler: an empty record; the panorama timeout is
      scheduled when the image element exists, otherwise the panorama is counted as
      an error at once; the ceiling timer is always scheduled. */
  function Start(page: Page): (r: State)
    ensures !r.status.panorama && !r.status.model && !r.status.audio
    ensures r.status.loadedAssets == (if page.hasPanorama then 0 else 1)
    ensures r.status.errors == if page.hasPanorama then [] else [ErrorEntry(Panorama, "Element not found")]
    ensures r.screen.finalizeRuns == 0 && !r.host.sceneLoaded && r.host.ceilingTimer
    ensures r.host.panoramaTimer == page.hasPanorama
  {
    var s := State(Status(false, false, false, 0, false, []),
                   Screen([], 0, 0, false, 0),
                   Host(page, "", "", 0, false, false, page.hasPanorama, false, 0, false, true));
    if page.hasPanorama then s else AssetError(s, Panorama, "Element not found")
  }

  /** The panorama image's 'load' listener. */
  function OnPanoramaLoad(s: State): (r: State)
    ensures Grows(s, r)
    ensures !s.host.page.hasPanorama ==> r == s
    ensures s.host.page.hasPanorama ==>
      r.status.panorama && r.host.skySrc == PanoramaSource &&
      r.status.loadedAssets > s.status.loadedAssets && r.status.errors == s.status.errors
  {
    if s.host.page.hasPanorama then AssetLoaded(s.(host := s.host.(skySrc := PanoramaSource)), Panorama)
    else s
  }

  /** The panorama image's 'error' listener: fallback colour, then assetError. */
  function OnPanoramaError(s: State, e: string): (r: State)
    ensures Grows(s, r)
    ensures !s.host.page.hasPanorama ==> r == s
    ensures s.host.page.hasPanorama ==>
      r.host.skyColor == FallbackSkyColor && r.status.errors == s.status.errors + [ErrorEntry(Panorama, e)] &&
      r.status.loadedAssets > s.status.loadedAssets
    ensures s.host.page.hasPanorama && s.status.loadedAssets + 1 < TotalAssets ==>
      r.status.panorama == s.status.panorama
  {
    if s.host.page.hasPanorama then AssetError(s.(host := s.host.(skyColor := FallbackSkyColor)), Panorama, e)
    else s
  }

  /** The panorama timeout: nothing once the flag is set, otherwise fallback colour and assetLoaded. */
  function OnPanoramaTimeout(s: State): (r: State)
    requires s.host.panoramaTimer
    ensures Grows(s, r)
    ensures !r.host.panoramaTimer
    ensures s.status.panorama ==> r == s.(host := s.host.(panoramaTimer := false))
    ensures !s.status.panorama ==>
      r.status.panorama && r.host.skyColor == FallbackSkyColor &&
      r.status.loadedAssets > s.status.loadedAssets && r.status.errors == s.status.errors
  {
    var s1 := s.(host := s.host.(panoramaTimer := false));
    if s1.status.panorama then s1
    else AssetLoaded(s1.(host := s1.host.(skyColor := FallbackSkyColor)), Panorama)
  }

  /** loadMainModel: schedules the main model's timeout. Its listeners are the ones
      that host.sceneLoaded enables. */
  function LoadMainModel(s: State): (r: State)
    ensures Grows(s, r)
    ensures r.host.mainModelTimer && r.status == s.status && r.screen == s.screen
  {
    s.(host := s.host.(mainModelTimer := true))
  }

  /** The scene's 'loaded' listener: loadMainModel, then the audio listeners and
      timeout, or an audio error when the audio element is missing. */
  function OnSceneLoaded(s: State): (r: State)
    requires !s.host.sceneLoaded
    ensures Grows(s, r)
    ensures r.host.sceneLoaded && r.host.mainModelTimer
    ensures s.host.page.hasAudio ==> r.host.audioTimer
    ensures s.host.page.hasAudio ==> r.status == s.status
    ensures !s.host.page.hasAudio ==>
      r.status.errors == s.status.errors + [ErrorEntry(Audio, "Element not found")] &&
      r.status.audio == (s.status.audio || s.status.loadedAssets + 1 >= TotalAssets)
  {
    var s1 := LoadMainModel(s.(host := s.host.(sceneLoaded := true)));
    if s.host.page.hasAudio then s1.(host := s1.host.(audioTimer := true))
    else AssetError(s1, Audio, "Element not found")
  }

  /** The main model's 'model-loaded' listener (registered once the scene has loaded). */
  function OnMainModelLoad(s: State): (r: State)
    ensures Grows(s, r)
    ensures !s.host.sceneLoaded ==> r == s
    ensures s.host.sceneLoaded ==> r.status.model && r.status.loadedAssets > s.status.loadedAssets
  {
    if s.host.sceneLoaded then AssetLoaded(s, Model) else s
  }

  /** loadFallbackModel: one more pair of listeners on the fallback entity and one
      more fallback timeout; the record is not touched. */
  function LoadFallbackModel(s: State): (r: State)
    ensures Grows(s, r)
    ensures r.status == s.status && r.screen == s.screen
    ensures r.host.fallbackStarts == s.host.fallbackStarts + 1
    ensures r.host.fallbackTimers == s.host.fallbackTimers + 1
  {
    s.(host := s.host.(fallbackStarts := s.host.fallbackStarts + 1,
                       fallbackTimers := s.host.fallbackTimers + 1))
  }

  /** The main model's 'model-error' listener. */
  function OnMainModelError(s: State): (r: State)
    ensures Grows(s, r)
    ensures r.status == s.status
    ensures r.host.fallbackStarts == s.host.fallbackStarts + (if s.host.sceneLoaded then 1 else 0)
    ensures !s.host.sceneLoaded ==> r == s
    ensures s.host.sceneLoaded ==> r.screen == s.screen && r.host.fallbackTimers == s.host.fallbackTimers + 1
  {
    if s.host.sceneLoaded then LoadFallbackModel(s) else s
  }

  /** The main model's timeout: nothing once the model flag is set, otherwise the fallback stage. */
  function OnMainModelTimeout(s: State): (r: State)
    requires s.host.mainModelTimer
    ensures Grows(s, r)
    ensures !r.host.mainModelTimer && r.status == s.status
    ensures r.host.fallbackStarts == s.host.fallbackStarts + (if s.status.model then 0 else 1)
    ensures s.status.model ==> r == s.(host := s.host.(mainModelTimer := false))
    ensures !s.status.model ==>
      r.screen == s.screen && r.host.fallbackTimers == s.host.fallbackTimers + 1
  {
    var s1 := s.(host := s.host.(mainModelTimer := false));
    if s1.status.model then s1 else LoadFallbackModel(s1)
  }

  /** k listeners running assetLoaded('model') one after the other. */
  function LoadedTimes(s: State, k: nat): (r: State)
    ensures Grows(s, r)
    ensures r.host == s.host && r.status.errors == s.status.errors
    ensures r.status.loadedAssets >= s.status.loadedAssets + k
    ensures k > 0 ==> r.status.model
    ensures k == 0 ==> r == s
  {
    if k == 0 then s else AssetLoaded(LoadedTimes(s, k - 1), Model)
  }

  /** The fallback entity's 'model-loaded' event: every listener registered by a run
      of loadFallbackModel calls assetLoaded('model'). */
  function OnFallbackModelLoad(s: State): (r: State)
    ensures Grows(s, r)
    ensures r.host == s.host && r.status.errors == s.status.errors
    ensures r.status.loadedAssets >= s.status.loadedAssets + s.host.fallbackStarts
    ensures s.host.fallbackStarts > 0 ==> r.status.model
    ensures s.host.fallbackStarts == 0 ==> r == s
  {
    LoadedTimes(s, s.host.fallbackStarts)
  }

  /** One fallback 'model-error' listener: createSimpleBox, then assetError('model', …). */
  function FallbackFailed(s: State): (r: State)
    ensures Grows(s, r)
    ensures r.host == s.host && r.status.errors == s.status.errors + [ErrorEntry(Model, "All models failed")]
    ensures r.screen.boxes >= s.screen.boxes + 1 && r.status.loadedAssets > s.status.loadedAssets
  {
    AssetError(CreateSimpleBox(s), Model, "All models failed")
  }

  function FailedTimes(s: State, k: nat): (r: State)
    ensures Grows(s, r)
    ensures r.host == s.host && |r.status.errors| == |s.status.errors| + k
    ensures r.status.errors == s.status.errors + seq(k, _ => ErrorEntry(Model, "All models failed"))
    ensures r.screen.boxes >= s.screen.boxes + k && r.status.loadedAssets >= s.status.loadedAssets + k
    ensures k == 0 ==> r == s
  {
    if k == 0 then s else FallbackFailed(FailedTimes(s, k - 1))
  }

  /** The fallback entity's 'model-error' event, run by every registered listener. */
  function OnFallbackModelError(s: State): (r: State)
    ensures Grows(s, r)
    ensures r.host == s.host && |r.status.errors| == |s.status.errors| + s.host.fallbackStarts
    ensures r.status.errors ==
      s.status.errors + seq(s.host.fallbackStarts, _ => ErrorEntry(Model, "All models failed"))
    ensures r.screen.boxes >= s.screen.boxes + s.host.fallbackStarts
    ensures s.host.fallbackStarts == 0 ==> r == s
  {
    FailedTimes(s, s.host.fallbackStarts)
  }

  /** A fallback timeout: nothing once the model flag is set, otherwise the box and assetError. */
  function OnFallbackTimeout(s: State): (r: State)
    requires s.host.fallbackTimers > 0
    ensures Grows(s, r)
    ensures r.host.fallbackTimers == s.host.fallbackTimers - 1
    ensures s.status.model ==> r == s.(host := s.host.(fallbackTimers := s.host.fallbackTimers - 1))
    ensures !s.status.model ==>
      r.status.errors == s.status.errors + [ErrorEntry(Model, "Fallback model timeout")] &&
      r.screen.boxes >= s.screen.boxes + 1 && r.status.loadedAssets > s.status.loadedAssets
  {
    var s1 := s.(host := s.host.(fallbackTimers := s.host.fallbackTimers - 1));
    if s1.status.model then s1
    else AssetError(CreateSimpleBox(s1), Model, "Fallback model timeout")
  }

  /** The audio element's 'canplaythrough' listener. */
  function OnAudioCanPlay(s: State): (r: State)
    ensures Grows(s, r)
    ensures !(s.host.sceneLoaded && s.host.page.hasAudio) ==> r == s
    ensures s.host.sceneLoaded && s.host.page.hasAudio ==>
      r.status.audio && r.status.loadedAssets > s.status.loadedAssets
  {
    if s.host.sceneLoaded && s.host.page.hasAudio then AssetLoaded(s, Audio) else s
  }

  /** The audio element's 'error' listener. */
  function OnAudioError(s: State, e: string): (r: State)
    ensures Grows(s, r)
    ensures !(s.host.sceneLoaded && s.host.page.hasAudio) ==> r == s
    ensures s.host.sceneLoaded && s.host.page.hasAudio ==>
      r.status.errors == s.status.errors + [ErrorEntry(Audio, e)] &&
      r.status.loadedAssets > s.status.loadedAssets
  {
    if s.host.sceneLoaded && s.host.page.hasAudio then AssetError(s, Audio, e) else s
  }

  /** The audio timeout: nothing once the flag is set, otherwise assetLoaded('audio'). */
  function OnAudioTimeout(s: State): (r: State)
    requires s.host.audioTimer
    ensures Grows(s, r)
    ensures !r.host.audioTimer
    ensures s.status.audio ==> r == s.(host := s.host.(audioTimer := false))
    ensures !s.status.audio ==>
      r.status.audio && r.status.loadedAssets > s.status.loadedAssets && r.status.errors == s.status.errors
  {
    var s1 := s.(host := s.host.(audioTimer := false));
    if s1.status.audio then s1 else AssetLoaded(s1, Audio)
  }

  /** The force-start button's 'click' listener. */
  function OnForceStart(s: State): (r: State)
    ensures Grows(s, r)
    ensures !s.host.page.hasForceStart ==> r == s
    ensures s.host.page.hasForceStart ==>
      AllSet(r.status) && r.screen.finalizeRuns > s.screen.finalizeRuns
  {
    if s.host.page.hasForceStart then FinalizeLoading(s) else s
  }

  /** The ceiling timer: finalize unless the loading screen was already removed. */
  function OnCeilingTimeout(s: State): (r: State)
    requires s.host.ceilingTimer
    ensures Grows(s, r)
    ensures !r.host.ceilingTimer
    ensures !s.host.overlayRemoved ==> AllSet(r.status) && r.screen.finalizeRuns > s.screen.finalizeRuns
    ensures s.host.overlayRemoved ==> r.status == s.status && r.screen == s.screen
  {
    var s1 := s.(host := s.host.(ceilingTimer := false));
    if !s1.host.overlayRemoved then FinalizeLoading(s1) else s1
  }

  /** The 500 ms timer scheduled by finalizeLoading: remove the loading screen and
      show the scene (the particle effects are not modelled). */
  function OnReveal(s: State): (r: State)
    requires s.screen.pendingReveals > 0
    ensures Grows(s, r)
    ensures r.host.overlayRemoved && r.status == s.status
    ensures r.screen.pendingReveals == s.screen.pendingReveals - 1
  {
    s.(screen := s.screen.(pendingReveals := s.screen.pendingReveals - 1),
       host := s.host.(overlayRemoved := true))
  }

  datatype Event =
    | PanoramaLoad | PanoramaError(detail: string) | PanoramaTimeout
    | SceneLoaded
    | MainModelLoad | MainModelError | MainModelTimeout
    | FallbackModelLoad | FallbackModelError | FallbackTimeout
    | AudioCanPlay | AudioError(detail: string) | AudioTimeout
    | ForceStartClick | CeilingTimeout | RevealTimeout

  /** Whether the host can deliver the event now: timers only once scheduled and not
      yet fired, the scene's 'loaded' event once. */
  predicate Enabled(s: State, ev: Event) {
    match ev
    case PanoramaTimeout => s.host.panoramaTimer
    case SceneLoaded => !s.host.sceneLoaded
    case MainModelTimeout => s.host.mainModelTimer
    case FallbackTimeout => s.host.fallbackTimers > 0
    case AudioTimeout => s.host.audioTimer
    case CeilingTimeout => s.host.ceilingTimer
    case RevealTimeout => s.screen.pendingReveals > 0
    case _ => true
  }

  function Step(s: State, ev: Event): (r: State)
    requires Enabled(s, ev)
    ensures Grows(s, r)
  {
    match ev
    case PanoramaLoad => OnPanoramaLoad(s)
    case PanoramaError(e) => OnPanoramaError(s, e)
    case PanoramaTimeout => OnPanoramaTimeout(s)
    case SceneLoaded => OnSceneLoaded(s)
    case MainModelLoad => OnMainModelLoad(s)
    case MainModelError => OnMainModelError(s)
    case MainModelTimeout => OnMainModelTimeout(s)
    case FallbackModelLoad => OnFallbackModelLoad(s)
    case FallbackModelError => OnFallbackModelError(s)
    case FallbackTimeout => OnFallbackTimeout(s)
    case AudioCanPlay => OnAudioCanPlay(s)
    case AudioError(e) => OnAudioError(s, e)
    case AudioTimeout => OnAudioTimeout(s)
    case ForceStartClick => OnForceStart(s)
    case CeilingTimeout => OnCeilingTimeout(s)
    case RevealTimeout => OnReveal(s)
  }

  /** The state after the host delivers the events in order, or None when one of
      them cannot be delivered at that point. */
  function Run(s: State, evs: seq<Event>): (r: Option<State>)
    decreases |evs|
    ensures r.Some? ==> Grows(s, r.value)
    ensures r.Some? && evs != [] ==> Enabled(s, evs[0])
  {
    if evs == [] then Some(s)
    else if Enabled(s, evs[0]) then Run(Step(s, evs[0]), evs[1..])
    else None
  }

  /** A prefix of a run whose first event is deliverable continues from that event's step. */
  lemma RunPrefix(s: State, evs: seq<Event>, j: nat)
    requires 0 < j <= |evs| && Enabled(s, evs[0])
    ensures Run(s, evs[..j]) == Run(Step(s, evs[0]), evs[1..][..j - 1])
  {
    assert evs[..j][0] == evs[0];
    assert evs[..j][1..] == evs[1..][..j - 1];
  }

  /** A run completes iff each event is deliverable in the state the earlier ones leave. */
  lemma {:induction false} RunDelivers(s: State, evs: seq<Event>)
    decreases |evs|
    ensures Run(s, evs).Some? <==>
      forall i :: 0 <= i < |evs| ==> Run(s, evs[..i]).Some? && Enabled(Run(s, evs[..i]).value, evs[i])
  {
    assert evs[..0] == [];
    if evs != [] && Enabled(s, evs[0]) {
      var t := Step(s, evs[0]);
      RunDelivers(t, evs[1..]);
      forall i | 1 <= i <= |evs|
        ensures Run(s, evs[..i]) == Run(t, evs[1..][..i - 1])
      {
        RunPrefix(s, evs, i);
      }
      if Run(s, evs).Some? {
        forall i | 0 < i < |evs|
          ensures Run(s, evs[..i]).Some? && Enabled(Run(s, evs[..i]).value, evs[i])
        {
          assert evs[i] == evs[1..][i - 1];
        }
      } else {
        var j :| 0 <= j < |evs| - 1 &&
          !(Run(t, evs[1..][..j]).Some? && Enabled(Run(t, evs[1..][..j]).value, evs[1..][j]));
        assert evs[1..][j] == evs[j + 1];
        assert Run(s, evs[..j + 1]) == Run(t, evs[1..][..j]);
      }
    }
  }
}

=== FILE: invariant.dfy ===
/** What holds between any two handlers of the loader, whatever the order in which
    the host delivers events and timers: the properties the code as written keeps. */
module Invariant {
  import opened Progress
  import opened Tracker
  import opened Events

  /** The invariant of the tracker between handler runs:
      - hasErrors says exactly whether errors is non-empty;
      - the progress text has received the percentage of every count 1 .. loadedAssets;
      - every set flag and every recorded error was counted (loadedAssets may count more);
      - finalizeLoading has run exactly when the count has reached the total, and then
        every flag is set and the loading screen's opacity is 0;
      - each pending reveal belongs to a run of finalizeLoading, and the loading screen
        is only removed after one;
      - each pending fallback timeout belongs to a run of loadFallbackModel, and the
        model and audio timers exist only once the scene has loaded. */
  predicate Inv(s: State): (b: bool)
    ensures b ==> |s.status.errors| <= s.status.loadedAssets
    ensures b ==> |s.screen.shown| == if s.host.page.hasProgressText then s.status.loadedAssets else 0
  {
    var st, sc, h := s.status, s.screen, s.host;
    (st.hasErrors <==> |st.errors| > 0) &&
    sc.shown == Written(h.page, Shown(0, st.loadedAssets)) &&
    TotalAssets - Unset(st) + |st.errors| <= st.loadedAssets &&
    (sc.finalizeRuns > 0 <==> st.loadedAssets >= TotalAssets) &&
    (st.loadedAssets >= TotalAssets ==> AllSet(st)) &&
    (sc.overlayHidden <==> sc.finalizeRuns > 0) &&
    sc.pendingReveals <= sc.finalizeRuns &&
    (h.overlayRemoved ==> sc.finalizeRuns > 0) &&
    h.fallbackTimers <= h.fallbackStarts &&
    (h.panoramaTimer ==> h.page.hasPanorama) &&
    (h.audioTimer ==> h.page.hasAudio) &&
    (!h.sceneLoaded ==> !h.mainModelTimer && !h.audioTimer && h.fallbackStarts == 0)
  }

  /** The progress text of a state satisfying Inv only ever grew by non-decreasing percentages. */
  lemma ShownInOrder(s: State)
    requires Inv(s)
    ensures forall i, j :: 0 <= i <= j < |s.screen.shown| ==> s.screen.shown[i] <= s.screen.shown[j]
  {
    ShownSorted(0, s.status.loadedAssets);
  }

  lemma ShownExtends(s: State, r: State)
    requires Inv(s) && ShowsCounts(s, r) && r.host.page == s.host.page
    requires s.status.loadedAssets <= r.status.loadedAssets
    ensures r.screen.shown == Written(r.host.page, Shown(0, r.status.loadedAssets))
  {
    ShownSplit(0, s.status.loadedAssets, r.status.loadedAssets);
  }

  lemma LoadedKeepsInv(s: State, a: Asset)
    requires Inv(s)
    ensures Inv(AssetLoaded(s, a))
  {
    var r := AssetLoaded(s, a);
    ShownExtends(s, r);
  }

  lemma ErrorKeepsInv(s: State, a: Asset, e: string)
    requires Inv(s)
    ensures Inv(AssetError(s, a, e))
  {
    var r := AssetError(s, a, e);
    ShownExtends(s, r);
  }

  lemma FinalizeKeepsInv(s: State)
    requires Inv(s)
    ensures Inv(FinalizeLoading(s))
  {
    var r := FinalizeLoading(s);
    ShownExtends(s, r);
  }

  lemma {:induction false} LoadedTimesKeepsInv(s: State, k: nat)
    requires Inv(s)
    ensures Inv(LoadedTimes(s, k))
  {
    if k > 0 {
      LoadedTimesKeepsInv(s, k - 1);
      LoadedKeepsInv(LoadedTimes(s, k - 1), Model);
    }
  }

  lemma {:induction false} FailedTimesKeepsInv(s: State, k: nat)
    requires Inv(s)
    ensures Inv(FailedTimes(s, k))
  {
    if k > 0 {
      var m := FailedTimes(s, k - 1);
      FailedTimesKeepsInv(s, k - 1);
      ErrorKeepsInv(CreateSimpleBox(m), Model, "All models failed");
    }
  }

  lemma StartInv(page: Page)
    ensures Inv(Start(page))
  {
    var s := State(Status(false, false, false, 0, false, []),
                   Screen([], 0, 0, false, 0),
                   Host(page, "", "", 0, false, false, page.hasPanorama, false, 0, false, true));
    assert Inv(s);
    if !page.hasPanorama {
      ErrorKeepsInv(s, Panorama, "Element not found");
    }
  }

  lemma PanoramaKeepsInv(s: State, ev: Event)
    requires Inv(s) && Enabled(s, ev)
    requires ev.PanoramaLoad? || ev.PanoramaError? || ev.PanoramaTimeout?
    ensures Inv(Step(s, ev))
  {
    var h := s.host;
    match ev
    case PanoramaLoad =>
      if h.page.hasPanorama { LoadedKeepsInv(s.(host := h.(skySrc := PanoramaSource)), Panorama); }
    case PanoramaError(e) =>
      if h.page.hasPanorama { ErrorKeepsInv(s.(host := h.(skyColor := FallbackSkyColor)), Panorama, e); }
    case PanoramaTimeout =>
      var s1 := s.(host := h.(panoramaTimer := false));
      if !s1.status.panorama { LoadedKeepsInv(s1.(host := s1.host.(skyColor := FallbackSkyColor)), Panorama); }
  }

  lemma MainModelKeepsInv(s: State, ev: Event)
    requires Inv(s) && Enabled(s, ev)
    requires ev.SceneLoaded? || ev.MainModelLoad? || ev.MainModelError? || ev.MainModelTimeout?
    ensures Inv(Step(s, ev))
  {
    var h := s.host;
    match ev
    case SceneLoaded =>
      var s1 := LoadMainModel(s.(host := h.(sceneLoaded := true)));
      if !h.page.hasAudio { ErrorKeepsInv(s1, Audio, "Element not found"); }
    case MainModelLoad =>
      if h.sceneLoaded { LoadedKeepsInv(s, Model); }
    case MainModelError =>
    case MainModelTimeout =>
  }

  lemma FallbackKeepsInv(s: State, ev: Event)
    requires Inv(s) && Enabled(s, ev)
    requires ev.FallbackModelLoad? || ev.FallbackModelError?
    ensures Inv(Step(s, ev))
  {
    if ev.FallbackModelLoad? {
      LoadedTimesKeepsInv(s, s.host.fallbackStarts);
    } else {
      FailedTimesKeepsInv(s, s.host.fallbackStarts);
    }
  }

  lemma FallbackTimeoutKeepsInv(s: State)
    requires Inv(s) && s.host.fallbackTimers > 0
    ensures Inv(OnFallbackTimeout(s))
  {
    var h := s.host;
    var s1 := s.(host := h.(fallbackTimers := h.fallbackTimers - 1));
    assert Inv(s1);
    if s1.status.model {
      assert OnFallbackTimeout(s) == s1;
    } else {
      var b := CreateSimpleBox(s1);
      assert Inv(b);
      ErrorKeepsInv(b, Model, "Fallback model timeout");
      assert OnFallbackTimeout(s) == AssetError(b, Model, "Fallback model timeout");
    }
  }

  lemma AudioKeepsInv(s: State, ev: Event)
    requires Inv(s) && Enabled(s, ev)
    requires ev.AudioCanPlay? || ev.AudioError? || ev.AudioTimeout?
    ensures Inv(Step(s, ev))
  {
    var h := s.host;
    match ev
    case AudioCanPlay =>
      if h.sceneLoaded && h.page.hasAudio { LoadedKeepsInv(s, Audio); }
    case AudioError(e) =>
      if h.sceneLoaded && h.page.hasAudio { ErrorKeepsInv(s, Audio, e); }
    case AudioTimeout =>
      var s1 := s.(host := h.(audioTimer := false));
      if !s1.status.audio { LoadedKeepsInv(s1, Audio); }
  }

  lemma FinishKeepsInv(s: State, ev: Event)
    requires Inv(s) && Enabled(s, ev)
    requires ev.ForceStartClick? || ev.CeilingTimeout? || ev.RevealTimeout?
    ensures Inv(Step(s, ev))
  {
    var h := s.host;
    match ev
    case ForceStartClick =>
      if h.page.hasForceStart { FinalizeKeepsInv(s); }
    case CeilingTimeout =>
      var s1 := s.(host := h.(ceilingTimer := false));
      if !s1.host.overlayRemoved { FinalizeKeepsInv(s1); }
    case RevealTimeout =>
  }

  /** Every handler the host can run keeps the invariant. */
  lemma StepKeepsInv(s: State, ev: Event)
    requires Inv(s) && Enabled(s, ev)
    ensures Inv(Step(s, ev))
  {
    if ev.PanoramaLoad? || ev.PanoramaError? || ev.PanoramaTimeout? {
      PanoramaKeepsInv(s, ev);
    } else if ev.AudioCanPlay? || ev.AudioError? || ev.AudioTimeout? {
      AudioKeepsInv(s, ev);
    } else if ev.ForceStartClick? || ev.CeilingTimeout? || ev.RevealTimeout? {
      FinishKeepsInv(s, ev);
    } else if ev.FallbackModelLoad? || ev.FallbackModelError? {
      FallbackKeepsInv(s, ev);
    } else if ev.FallbackTimeout? {
      FallbackTimeoutKeepsInv(s);
    } else {
      MainModelKeepsInv(s, ev);
    }
  }

  /** The progress text only receives more percentages. */
  lemma StepExtendsShown(s: State, ev: Event)
    requires Inv(s) && Enabled(s, ev)
    ensures s.screen.shown <= Step(s, ev).screen.shown
  {
    StepKeepsInv(s, ev);
    ShownSplit(0, s.status.loadedAssets, Step(s, ev).status.loadedAssets);
  }

  /** Over any run the invariant holds and the count, the errors and the progress text only grow. */
  lemma {:induction false} RunKeepsInv(s: State, evs: seq<Event>)
    requires Inv(s) && Run(s, evs).Some?
    decreases |evs|
    ensures var t := Run(s, evs).value;
      Inv(t) && FlagsGrow(s.status, t.status) && s.status.loadedAssets <= t.status.loadedAssets &&
      s.status.errors <= t.status.errors && s.screen.shown <= t.screen.shown &&
      Percent(s.status.loadedAssets) <= Percent(t.status.loadedAssets)
  {
    if evs != [] {
      var r := Step(s, evs[0]);
      StepKeepsInv(s, evs[0]);
      StepExtendsShown(s, evs[0]);
      RunKeepsInv(r, evs[1..]);
      PercentMonotone(s.status.loadedAssets, Run(s, evs).value.status.loadedAssets);
    }
  }

  /** From page load on, whatever the host delivers: the invariant holds, the progress
      text never went down, and the count reached the total exactly when finalizeLoading
      has run, after which all three flags are set. */
  lemma Reachable(page: Page, evs: seq<Event>)
    requires Run(Start(page), evs).Some?
    ensures var t := Run(Start(page), evs).value;
      Inv(t) &&
      (forall i, j :: 0 <= i <= j < |t.screen.shown| ==> t.screen.shown[i] <= t.screen.shown[j]) &&
      (t.screen.finalizeRuns > 0 <==> t.status.loadedAssets >= TotalAssets) &&
      (t.screen.finalizeRuns > 0 ==> AllSet(t.status))
  {
    StartInv(page);
    RunKeepsInv(Start(page), evs);
    ShownInOrder(Run(Start(page), evs).value);
  }
}

=== FILE: loader.dfy ===
/** The loader itself: the assetStatus record and what the handlers write to the page
    are fields of one object, and every handler is a method that updates them in place.
    Each method is proved to leave the object in the state the matching function of
    Tracker or Events gives, and each handler the host can run keeps Invariant.Inv. */
module AssetLoader {
  import opened Progress
  import opened Tracker
  import opened Events
  import opened Invariant

  class Loader {
    const page: Page

    // assetStatus (totalAssets is Progress.TotalAssets)
    var panorama: bool
    var model: bool
    var audio: bool
    var loadedAssets: nat
    var hasErrors: bool
    var errors: seq<ErrorEntry>

    // what the handlers write to the page
    var shown: seq<nat>
    var skySrc: string
    var skyColor: string
    var overlayHidden: bool
    var overlayRemoved: bool
    ghost var boxes: nat
    ghost var finalizeRuns: nat

    // listeners registered so far
    var sceneLoaded: bool
    var fallbackStarts: nat

    // timers scheduled and not yet fired
    ghost var panoramaTimer: bool
    ghost var mainModelTimer: bool
    ghost var fallbackTimers: nat
    ghost var audioTimer: bool
    ghost var ceilingTimer: bool
    ghost var pendingReveals: nat

    /** The object's fields as a Tracker.State. */
    ghost function Snapshot(): State
      reads this
    {
      State(Status(panorama, model, audio, loadedAssets, hasErrors, errors),
            Screen(shown, boxes, finalizeRuns, overlayHidden, pendingReveals),
            Host(page, skySrc, skyColor, fallbackStarts, overlayRemoved, sceneLoaded,
                 panoramaTimer, mainModelTimer, fallbackTimers, audioTimer, ceilingTimer))
    }

    ghost predicate Valid()
      reads this
    {
      Inv(Snapshot())
    }

    /** The DOMContentLoaded handler. */
    constructor (page: Page)
      ensures Valid() && Snapshot() == Start(page)
    {
      this.page := page;
      panorama, model, audio := false, false, false;
      loadedAssets, hasErrors, errors := 0, false, [];
      shown, skySrc, skyColor := [], "", "";
      overlayHidden, overlayRemoved := false, false;
      sceneLoaded, fallbackStarts := false, 0;
      boxes := 0;
      finalizeRuns := 0;
      panoramaTimer := page.hasPanorama;
      mainModelTimer := false;
      fallbackTimers := 0;
      audioTimer := false;
      ceilingTimer := true;
      pendingReveals := 0;
      new;
      if !page.hasPanorama {
        AssetError(Panorama, "Element not found");
      }
      StartInv(page);
    }

    method UpdateProgress()
      modifies this
      decreases Unset(Snapshot().status), 2
      ensures Snapshot() == Tracker.UpdateProgress(old(Snapshot()))
    {
      ghost var s := Snapshot();
      var percentage := Percent(loadedAssets);
      if page.hasProgressText {
        shown := shown + [percentage];
      }
      assert Snapshot() == Show(s);
      if loadedAssets >= TotalAssets {
        FinalizeLoading();
      }
    }

    method AssetLoaded(a: Asset)
      modifies this
      decreases Unset(Mark(Snapshot().status, a)), 3
      ensures Snapshot() == Tracker.AssetLoaded(old(Snapshot()), a)
    {
      ghost var s := Snapshot();
      match a {
        case Panorama => panorama := true;
        case Model => model := true;
        case Audio => audio := true;
      }
      loadedAssets := loadedAssets + 1;
      assert Snapshot() == Count(s, a);
      UpdateProgress();
    }

    method AssetError(a: Asset, e: string)
      modifies this
      ensures Snapshot() == Tracker.AssetError(old(Snapshot()), a, e)
    {
      ghost var s := Snapshot();
      errors := errors + [ErrorEntry(a, e)];
      hasErrors := true;
      loadedAssets := loadedAssets + 1;
      assert Snapshot() == s.(status := s.status.(errors := s.status.errors + [ErrorEntry(a, e)],
        hasErrors := true, loadedAssets := s.status.loadedAssets + 1));
      UpdateProgress();
    }

    method CreateSimpleBox()
      modifies this
      ensures Snapshot() == Tracker.CreateSimpleBox(old(Snapshot()))
    {
      boxes := boxes + 1;
    }

    /** One forcing line of finalizeLoading: if the asset's flag is still false, count it
        as loaded (for the model, after creating the placeholder box). */
    method Force(a: Asset)
      modifies this
      decreases Unset(Snapshot().status), 0
      ensures Snapshot() == Tracker.Force(old(Snapshot()), a)
    {
      var done := match a
        case Panorama => panorama
        case Model => model
        case Audio => audio;
      ghost var s := Snapshot();
      if !done {
        if a == Model {
          CreateSimpleBox();
        }
        assert Snapshot() == if a == Model then Tracker.CreateSimpleBox(s) else s;
        AssetLoaded(a);
      }
    }

    method FinalizeLoading()
      modifies this
      decreases Unset(Snapshot().status), 1
      ensures Snapshot() == Tracker.FinalizeLoading(old(Snapshot()))
    {
      ghost var s := Snapshot();
      finalizeRuns := finalizeRuns + 1;
      ghost var s0 := Snapshot();
      assert s0 == s.(screen := s.screen.(finalizeRuns := s.screen.finalizeRuns + 1));
      Force(Panorama);
      ghost var s1 := Snapshot();
      assert Unset(s1.status) <= Unset(s.status);
      Force(Model);
      ghost var s2 := Snapshot();
      assert Unset(s2.status) <= Unset(s.status);
      Force(Audio);
      FinalizeSteps(s, s0, s1, s2, Snapshot());
      HideOverlay();
    }

    method HideOverlay()
      modifies this
      ensures Snapshot() == Tracker.HideOverlay(old(Snapshot()))
    {
      overlayHidden := true;
      pendingReveals := pendingReveals + 1;
    }

    method PanoramaLoad()
      requires Valid()
      modifies this
      ensures Valid() && Snapshot() == OnPanoramaLoad(old(Snapshot()))
    {
      if page.hasPanorama {
        skySrc := PanoramaSource;
        LoadedKeepsInv(Snapshot(), Panorama);
        AssetLoaded(Panorama);
      }
    }

    method PanoramaError(e: string)
      requires Valid()
      modifies this
      ensures Valid() && Snapshot() == OnPanoramaError(old(Snapshot()), e)
    {
      if page.hasPanorama {
        skyColor := FallbackSkyColor;
        ErrorKeepsInv(Snapshot(), Panorama, e);
        AssetError(Panorama, e);
      }
    }

    method PanoramaTimeout()
      requires Valid() && panoramaTimer
      modifies this
      ensures Valid() && Snapshot() == OnPanoramaTimeout(old(Snapshot()))
    {
      panoramaTimer := false;
      if !panorama {
        skyColor := FallbackSkyColor;
        LoadedKeepsInv(Snapshot(), Panorama);
        AssetLoaded(Panorama);
      }
    }

    method LoadMainModel()
      modifies this
      ensures Snapshot() == Events.LoadMainModel(old(Snapshot()))
    {
      mainModelTimer := true;
    }

    method SceneLoaded()
      requires Valid() && !sceneLoaded
      modifies this
      ensures Valid() && Snapshot() == OnSceneLoaded(old(Snapshot()))
    {
      ghost var s := Snapshot();
      sceneLoaded := true;
      LoadMainModel();
      ghost var s1 := Snapshot();
      assert s1 == Events.LoadMainModel(s.(host := s.host.(sceneLoaded := true)));
      if page.hasAudio {
        audioTimer := true;
      } else {
        ErrorKeepsInv(s1, Audio, "Element not found");
        AssetError(Audio, "Element not found");
      }
    }

    method MainModelLoad()
      requires Valid()
      modifies this
      ensures Valid() && Snapshot() == OnMainModelLoad(old(Snapshot()))
    {
      if sceneLoaded {
        LoadedKeepsInv(Snapshot(), Model);
        AssetLoaded(Model);
      }
    }

    method LoadFallbackModel()
      modifies this
      ensures Snapshot() == Events.LoadFallbackModel(old(Snapshot()))
    {
      fallbackStarts := fallbackStarts + 1;
      fallbackTimers := fallbackTimers + 1;
    }

    method MainModelError()
      requires Valid()
      modifies this
      ensures Valid() && Snapshot() == OnMainModelError(old(Snapshot()))
    {
      if sceneLoaded {
        LoadFallbackModel();
      }
    }

    method MainModelTimeout()
      requires Valid() && mainModelTimer
      modifies this
      ensures Valid() && Snapshot() == OnMainModelTimeout(old(Snapshot()))
    {
      mainModelTimer := false;
      if !model {
        LoadFallbackModel();
      }
    }

    /** The fallback entity fires 'model-loaded' once; each listener added by a run of
        loadFallbackModel handles it. */
    method FallbackModelLoad()
      requires Valid()
      modifies this
      ensures Valid() && Snapshot() == OnFallbackModelLoad(old(Snapshot()))
    {
      ghost var s := Snapshot();
      var listeners := fallbackStarts;
      for i := 0 to listeners
        invariant Snapshot() == LoadedTimes(s, i)
      {
        AssetLoaded(Model);
      }
      LoadedTimesKeepsInv(s, listeners);
    }

    /** The fallback entity fires 'model-error' once; each listener handles it. */
    method FallbackModelError()
      requires Valid()
      modifies this
      ensures Valid() && Snapshot() == OnFallbackModelError(old(Snapshot()))
    {
      ghost var s := Snapshot();
      var listeners := fallbackStarts;
      for i := 0 to listeners
        invariant Snapshot() == FailedTimes(s, i)
      {
        CreateSimpleBox();
        AssetError(Model, "All models failed");
      }
      FailedTimesKeepsInv(s, listeners);
    }

    method FallbackTimeout()
      requires Valid() && fallbackTimers > 0
      modifies this
      ensures Valid() && Snapshot() == OnFallbackTimeout(old(Snapshot()))
    {
      fallbackTimers := fallbackTimers - 1;
      if !model {
        CreateSimpleBox();
        ErrorKeepsInv(Snapshot(), Model, "Fallback model timeout");
        AssetError(Model, "Fallback model timeout");
      }
    }

    method AudioCanPlay()
      requires Valid()
      modifies this
      ensures Valid() && Snapshot() == OnAudioCanPlay(old(Snapshot()))
    {
      if sceneLoaded && page.hasAudio {
        LoadedKeepsInv(Snapshot(), Audio);
        AssetLoaded(Audio);
      }
    }

    method AudioError(e: string)
      requires Valid()
      modifies this
      ensures Valid() && Snapshot() == OnAudioError(old(Snapshot()), e)
    {
      if sceneLoaded && page.hasAudio {
        ErrorKeepsInv(Snapshot(), Audio, e);
        AssetError(Audio, e);
      }
    }

    method AudioTimeout()
      requires Valid() && audioTimer
      modifies this
      ensures Valid() && Snapshot() == OnAudioTimeout(old(Snapshot()))
    {
      audioTimer := false;
      if !audio {
        LoadedKeepsInv(Snapshot(), Audio);
        AssetLoaded(Audio);
      }
    }

    method ForceStartClick()
      requires Valid()
      modifies this
      ensures Valid() && Snapshot() == OnForceStart(old(Snapshot()))
    {
      if page.hasForceStart {
        FinalizeKeepsInv(Snapshot());
        FinalizeLoading();
      }
    }

    method CeilingTimeout()
      requires Valid() && ceilingTimer
      modifies this
      ensures Valid() && Snapshot() == OnCeilingTimeout(old(Snapshot()))
    {
      ceilingTimer := false;
      if !overlayRemoved {
        FinalizeKeepsInv(Snapshot());
        FinalizeLoading();
      }
    }

    /** The 500 ms timer of finalizeLoading: the loading screen leaves the layout and
        the scene becomes visible. */
    method RevealTimeout()
      requires Valid() && pendingReveals > 0
      modifies this
      ensures Valid() && Snapshot() == OnReveal(old(Snapshot()))
    {
      pendingReveals := pendingReveals - 1;
      overlayRemoved := true;
    }
  }
}

=== FILE: progress.dfy ===
/** The percentage written to the loading screen by updateProgress. */
module Progress {

  /** Number of tracked assets: the panorama, the model and the audio track. */
  const TotalAssets: nat := 3

  /** Math.round((loaded / TotalAssets) * 100): the exact quotient rounded half up.
      For TotalAssets == 3 the quotient never ends in .5, so the floating-point
      evaluation and this integer one agree for every count the page can reach. */
  function Percent(loaded: nat): (p: nat)
    ensures 200 * loaded - TotalAssets < 2 * TotalAssets * p <= 200 * loaded + TotalAssets
  {
    (200 * loaded + TotalAssets) / (2 * TotalAssets)
  }

  /** The four values the loading screen can show while at most three assets are counted. */
  lemma PercentSteps()
    ensures Percent(0) == 0 && Percent(1) == 33 && Percent(2) == 67 && Percent(3) == 100
  {
  }

  lemma PercentMonotone(m: nat, n: nat)
    requires m <= n
    ensures Percent(m) <= Percent(n)
  {
  }

  /** The screen shows 100% exactly once every asset is counted; beyond that it shows more. */
  lemma PercentFull(n: nat)
    ensures Percent(n) >= 100 <==> n >= TotalAssets
    ensures n > TotalAssets ==> Percent(n) > 100
  {
  }

  /** The percentages shown for the counts from + 1 .. to, in that order. */
  function Shown(from: nat, to: nat): (r: seq<nat>)
    decreases if from <= to then to - from else 0
    ensures |r| == if from <= to then to - from else 0
  {
    if to <= from then [] else [Percent(from + 1)] + Shown(from + 1, to)
  }

  lemma {:induction false} ShownAt(from: nat, to: nat, i: nat)
    requires from + i < to
    decreases i
    ensures Shown(from, to)[i] == Percent(from + i + 1)
  {
    if i > 0 {
      ShownAt(from + 1, to, i - 1);
    }
  }

  lemma {:induction false} ShownSplit(a: nat, b: nat, c: nat)
    requires a <= b <= c
    decreases b - a
    ensures Shown(a, b) + Shown(b, c) == Shown(a, c)
  {
    if a < b {
      ShownSplit(a + 1, b, c);
      assert Shown(a, b) + Shown(b, c) == [Percent(a + 1)] + (Shown(a + 1, b) + Shown(b, c));
    }
  }

  /** The shown percentages never go down. */
  lemma ShownSorted(a: nat, b: nat)
    ensures forall i, j :: 0 <= i <= j < |Shown(a, b)| ==> Shown(a, b)[i] <= Shown(a, b)[j]
  {
    forall i, j | 0 <= i <= j < |Shown(a, b)|
      ensures Shown(a, b)[i] <= Shown(a, b)[j]
    {
      ShownAt(a, b, i);
      ShownAt(a, b, j);
      PercentMonotone(a + i + 1, a + j + 1);
    }
  }
}

=== FILE: scenarios.dfy ===
/** Event orders on which the loader, as written, counts an asset more than once,
    finalizes more than once or starts the fallback model twice, and the guarantee
    that the ceiling timer does give: every flag set and the count at the total. */
module Scenarios {
  import opened Progress
  import opened Tracker
  import opened Events
  import opened Invariant

  /** A page with every optional element present. */
  const FullPage := Page(true, true, true, true)

  /** assetError does not set the flag, so the audio timeout that follows an audio
      'error' counts the audio a second time. The timeout fires 5 s after the scene's
      'loaded' event, so this order can come before the 15 s ceiling timer. */
  lemma AudioCountedTwice(s: State, e: string)
    requires s.host.sceneLoaded && s.host.page.hasAudio && s.host.audioTimer
    requires !s.status.audio && s.status.loadedAssets + 2 < TotalAssets
    ensures OnAudioError(s, e).host.audioTimer
    ensures var t := OnAudioTimeout(OnAudioError(s, e));
      t.status.audio && t.status.loadedAssets == s.status.loadedAssets + 2 &&
      t.status.errors == s.status.errors + [ErrorEntry(Audio, e)]
  {
    var s1 := OnAudioError(s, e);
    assert !s1.status.audio && s1.status.loadedAssets == s.status.loadedAssets + 1;
  }

  /** When the first forcing line of finalizeLoading brings the count to the total,
      finalizeLoading runs again inside itself before it returns. */
  lemma FinalizeReenters(s: State)
    requires !AllSet(s.status) && s.status.loadedAssets + 1 >= TotalAssets
    ensures FinalizeLoading(s).screen.finalizeRuns >= s.screen.finalizeRuns + 2
  {
    var s0 := s.(screen := s.screen.(finalizeRuns := s.screen.finalizeRuns + 1));
    var s1 := Force(s0, Panorama);
    var s2 := Force(s1, Model);
    var s3 := Force(s2, Audio);
    if !s.status.panorama {
      assert s1.screen.finalizeRuns > s0.screen.finalizeRuns;
    } else if !s.status.model {
      assert s2.screen.finalizeRuns > s1.screen.finalizeRuns;
    } else {
      assert s3.screen.finalizeRuns > s2.screen.finalizeRuns;
    }
  }

  /** A panorama 'error' at count 2 with the panorama and the model unflagged brings
      the count to the total, and the forcing lines then take it two further. */
  lemma PanoramaErrorAtTwo(s: State, e: string)
    requires s.host.page.hasPanorama && s.status.loadedAssets == 2
    requires !s.status.panorama && !s.status.model && s.status.audio
    ensures OnPanoramaError(s, e).status.loadedAssets == TotalAssets + 2
    ensures OnPanoramaError(s, e).screen.finalizeRuns >= s.screen.finalizeRuns + 2
  {
    var sky := s.(host := s.host.(skyColor := FallbackSkyColor));
    var counted := sky.(status := sky.status.(
      errors := sky.status.errors + [ErrorEntry(Panorama, e)], hasErrors := true, loadedAssets := 3));
    assert OnPanoramaError(s, e) == UpdateProgress(counted);
    assert UpdateProgress(counted) == FinalizeLoading(Show(counted));
    FinalizeReenters(Show(counted));
  }

  /** The first three events of CountExceedsTotal: the audio is counted twice, and the
      panorama and the model are still unflagged. */
  lemma AudioTwiceFromStart()
    ensures var s1 := OnSceneLoaded(Start(FullPage));
      s1.host.audioTimer && OnAudioError(s1, "e").host.audioTimer &&
      var s3 := OnAudioTimeout(OnAudioError(s1, "e"));
      s3.host.page == FullPage && s3.status.loadedAssets == 2 &&
      s3.status.audio && !s3.status.panorama && !s3.status.model
  {
    var s1 := OnSceneLoaded(Start(FullPage));
    assert s1.host.audioTimer && s1.status.loadedAssets == 0 && !s1.status.audio;
    AudioCountedTwice(s1, "e");
  }

  /** Scene loaded, audio error, audio timeout, then panorama error: the count ends at
      5, two more than the three assets, and finalizeLoading has run at least twice.
      Every event of this order can happen before the ceiling timer fires. */
  lemma CountExceedsTotal()
    ensures var evs := [SceneLoaded, AudioError("e"), AudioTimeout, PanoramaError("e")];
      Run(Start(FullPage), evs).Some? &&
      Run(Start(FullPage), evs).value.status.loadedAssets == TotalAssets + 2 &&
      Run(Start(FullPage), evs).value.screen.finalizeRuns >= 2
  {
    AudioTwiceFromStart();
    var s0 := Start(FullPage);
    var s1 := OnSceneLoaded(s0);
    var s2 := OnAudioError(s1, "e");
    var s3 := OnAudioTimeout(s2);
    var s4 := OnPanoramaError(s3, "e");
    PanoramaErrorAtTwo(s3, "e");
    assert Run(s3, [PanoramaError("e")]) == Some(s4);
    assert Run(s2, [AudioTimeout, PanoramaError("e")]) == Some(s4);
    assert Run(s1, [AudioError("e"), AudioTimeout, PanoramaError("e")]) == Some(s4);
  }

  /** A main model 'model-error' followed by the main model timeout starts the
      fallback stage twice; one fallback 'model-loaded' event then counts the model twice. */
  lemma FallbackStartedTwice(s: State)
    requires Inv(s) && s.host.sceneLoaded && s.host.mainModelTimer && !s.status.model
    requires s.host.fallbackStarts == 0 && s.status.loadedAssets + 2 < TotalAssets
    ensures var t := OnMainModelTimeout(OnMainModelError(s));
      t.host.fallbackStarts == 2 && t.host.fallbackTimers == s.host.fallbackTimers + 2 &&
      OnFallbackModelLoad(t).status.loadedAssets == s.status.loadedAssets + 2
  {
    var t := OnMainModelTimeout(OnMainModelError(s));
    var m := LoadedTimes(t, 1);
    assert LoadedTimes(t, 0) == t;
    assert m == AssetLoaded(t, Model);
    assert m.status.loadedAssets == s.status.loadedAssets + 1 && m.status.model;
    assert LoadedTimes(t, 2) == AssetLoaded(m, Model);
  }

  /** Once the ceiling timer has fired, every flag is set, the count has reached the
      total and finalizeLoading has run, whatever happened before. */
  lemma CeilingForcesAll(s: State)
    requires Inv(s) && s.host.ceilingTimer
    ensures var t := OnCeilingTimeout(s);
      AllSet(t.status) && t.status.loadedAssets >= TotalAssets && t.screen.finalizeRuns > 0
  {
    if !s.host.overlayRemoved {
      FinalizeKeepsInv(s.(host := s.host.(ceilingTimer := false)));
    }
  }

  /** The guarded audio timeout after a 'canplaythrough' changes neither the record
      nor the screen. */
  lemma AudioTimeoutAfterLoad(s: State)
    requires s.host.sceneLoaded && s.host.page.hasAudio && s.host.audioTimer
    ensures var l := OnAudioCanPlay(s);
      l.host.audioTimer && OnAudioTimeout(l).status == l.status && OnAudioTimeout(l).screen == l.screen
  {
    var l := OnAudioCanPlay(s);
    assert l.status.audio;
  }
}

=== FILE: tracker.dfy ===
/** The asset-loading tracker of js/asset-loader.js as a function of its state.
    Every handler of the loader is a function from the state before it runs to
    the state after it has run to completion; the class in loader.dfy is proved
    to change its fields exactly as these functions say. */
module Tracker {
  import opened Progress

  /** Colour written to the sky when the panorama fails or times out. */
  const FallbackSkyColor: string := "#2A0A4A"
  /** Source written to the sky when the panorama loads. */
  const PanoramaSource: string := "#panorama"

  datatype Asset = Panorama | Model | Audio

  /** One entry of assetStatus.errors: the asset and the error value passed to assetError. */
  datatype ErrorEntry = ErrorEntry(asset: Asset, error: string)

  /** Which optional elements the page has; fixed for the whole page load. */
  datatype Page = Page(hasPanorama: bool, hasAudio: bool, hasProgressText: bool, hasForceStart: bool)

  /** The assetStatus record (js/asset-loader.js:9-17); totalAssets is Progress.TotalAssets. */
  datatype Status = Status(
    panorama: bool, model: bool, audio: bool,
    loadedAssets: nat, hasErrors: bool, errors: seq<ErrorEntry>)

  /** What the chain assetLoaded / updateProgress / finalizeLoading writes besides the record:
      every percentage written to the progress text, oldest first (the page displays
      only the last one, with a '%' suffix), the number of
      placeholder boxes created, the number of finalizeLoading runs, whether the
      loading screen's opacity was set to 0, and the 500 ms reveal timers not yet fired. */
  datatype Screen = Screen(
    shown: seq<nat>, boxes: nat, finalizeRuns: nat, overlayHidden: bool, pendingReveals: nat)

  /** Everything that chain never writes: the page's elements, what was written to the
      sky ("" when nothing), the runs of loadFallbackModel (each adds one pair of
      listeners to the fallback entity), whether the loading screen was removed and
      the scene shown, whether the scene's 'loaded' handler ran, and the pending timers. */
  datatype Host = Host(
    page: Page, skySrc: string, skyColor: string, fallbackStarts: nat,
    overlayRemoved: bool, sceneLoaded: bool,
    panoramaTimer: bool, mainModelTimer: bool, fallbackTimers: nat, audioTimer: bool,
    ceilingTimer: bool)

  datatype State = State(status: Status, screen: Screen, host: Host)

  function Flag(st: Status, a: Asset): bool {
    match a
    case Panorama => st.panorama
    case Model => st.model
    case Audio => st.audio
  }

  /** assetStatus[type] = true */
  function Mark(st: Status, a: Asset): (r: Status)
    ensures Flag(r, a)
    ensures r.loadedAssets == st.loadedAssets && r.hasErrors == st.hasErrors && r.errors == st.errors
    ensures (r.panorama == (st.panorama || a == Panorama)) && (r.model == (st.model || a == Model)) &&
            (r.audio == (st.audio || a == Audio))
  {
    match a
    case Panorama => st.(panorama := true)
    case Model => st.(model := true)
    case Audio => st.(audio := true)
  }

  /** Number of assets whose flag is still false. */
  function Unset(st: Status): nat {
    (if st.panorama then 0 else 1) + (if st.model then 0 else 1) + (if st.audio then 0 else 1)
  }

  predicate AllSet(st: Status) {
    st.panorama && st.model && st.audio
  }

  predicate FlagsGrow(st: Status, r: Status) {
    (st.panorama ==> r.panorama) && (st.model ==> r.model) && (st.audio ==> r.audio)
  }

  /** What the chain leaves alone: the host part and the error list. */
  predicate Untouched(s: State, r: State) {
    r.host == s.host && r.status.hasErrors == s.status.hasErrors && r.status.errors == s.status.errors
  }

  /** r follows s: flags stay set, the count, the error list and the runs of
      finalizeLoading only grow, and the page is the same. */
  predicate Grows(s: State, r: State) {
    FlagsGrow(s.status, r.status) && s.status.loadedAssets <= r.status.loadedAssets &&
    s.status.errors <= r.status.errors && s.screen.finalizeRuns <= r.screen.finalizeRuns &&
    r.host.page == s.host.page
  }

  /** What reaches the progress text: nothing when the page has no such element. */
  function Written(p: Page, ps: seq<nat>): seq<nat> {
    if p.hasProgressText then ps else []
  }

  /** r's progress text is s's followed by the percentages of the counts reached since s. */
  predicate ShowsCounts(s: State, r: State) {
    r.screen.shown == s.screen.shown + Written(s.host.page, Shown(s.status.loadedAssets, r.status.loadedAssets))
  }

  lemma ShowsCountsTrans(s: State, m: State, r: State)
    requires ShowsCounts(s, m) && ShowsCounts(m, r) && m.host.page == s.host.page
    requires s.status.loadedAssets <= m.status.loadedAssets <= r.status.loadedAssets
    ensures ShowsCounts(s, r)
  {
    var a, b, c := s.status.loadedAssets, m.status.loadedAssets, r.status.loadedAssets;
    ShownSplit(a, b, c);
    if s.host.page.hasProgressText {
      assert r.screen.shown == s.screen.shown + Shown(a, b) + Shown(b, c);
    }
  }

  /** createSimpleBox: the last-resort placeholder. */
  function CreateSimpleBox(s: State): (r: State)
    ensures r.screen.boxes == s.screen.boxes + 1 && r.screen.(boxes := s.screen.boxes) == s.screen
    ensures r.status == s.status && r.host == s.host
  {
    s.(screen := s.screen.(boxes := s.screen.boxes + 1))
  }

  /** The last lines of finalizeLoading: the loading screen's opacity goes to 0 and
      its removal is scheduled 500 ms later. */
  function HideOverlay(s: State): (r: State)
    ensures r.screen.overlayHidden && r.screen.pendingReveals == s.screen.pendingReveals + 1
    ensures r.screen.(overlayHidden := s.screen.overlayHidden, pendingReveals := s.screen.pendingReveals) == s.screen
    ensures r.status == s.status && r.host == s.host
  {
    s.(screen := s.screen.(overlayHidden := true, pendingReveals := s.screen.pendingReveals + 1))
  }

  /** The percentage updateProgress writes, appended to what was shown before. */
  function Show(s: State): (r: State)
    ensures r.status == s.status && r.host == s.host && r.screen.(shown := s.screen.shown) == s.screen
    ensures s.host.page.hasProgressText ==> r.screen.shown == s.screen.shown + [Percent(s.status.loadedAssets)]
    ensures !s.host.page.hasProgressText ==> r == s
  {
    s.(screen := s.screen.(shown := s.screen.shown + Written(s.host.page, [Percent(s.status.loadedAssets)])))
  }

  /** updateProgress: show the percentage, and finalize once the count reaches the total. */
  function UpdateProgress(s: State): (r: State)
    decreases Unset(s.status), 2
    ensures Untouched(s, r) && FlagsGrow(s.status, r.status)
    ensures r.screen.finalizeRuns >= s.screen.finalizeRuns
    ensures r.screen.finalizeRuns > s.screen.finalizeRuns <==> s.status.loadedAssets >= TotalAssets
    ensures s.status.loadedAssets < TotalAssets ==> r == Show(s)
    ensures s.status.loadedAssets >= TotalAssets ==>
      AllSet(r.status) && r.screen.overlayHidden &&
      r.status.loadedAssets == s.status.loadedAssets + Unset(s.status) &&
      r.screen.boxes == s.screen.boxes + (if s.status.model then 0 else 1)
    ensures r.screen.shown == s.screen.shown +
      Written(s.host.page, [Percent(s.status.loadedAssets)] + Shown(s.status.loadedAssets, r.status.loadedAssets))
    ensures r.screen.pendingReveals - s.screen.pendingReveals == r.screen.finalizeRuns - s.screen.finalizeRuns
  {
    if s.status.loadedAssets >= TotalAssets then FinalizeLoading(Show(s)) else Show(s)
  }

  /** The record right after `assetStatus[type] = true; assetStatus.loadedAssets++`. */
  function Count(s: State, a: Asset): (r: State)
    ensures Flag(r.status, a) && FlagsGrow(s.status, r.status)
    ensures Unset(r.status) == Unset(Mark(s.status, a))
    ensures r.status.loadedAssets == s.status.loadedAssets + 1
    ensures r.status.errors == s.status.errors && r.status.hasErrors == s.status.hasErrors
    ensures r.screen == s.screen && r.host == s.host
  {
    var st := Mark(s.status, a);
    s.(status := st.(loadedAssets := st.loadedAssets + 1))
  }

  /** assetLoaded: set the asset's flag, count it, update the progress. */
  function AssetLoaded(s: State, a: Asset): (r: State)
    decreases Unset(Mark(s.status, a)), 3
    ensures Untouched(s, r) && FlagsGrow(s.status, r.status) && Flag(r.status, a)
    ensures r.screen.finalizeRuns >= s.screen.finalizeRuns
    ensures r.screen.finalizeRuns > s.screen.finalizeRuns <==> s.status.loadedAssets + 1 >= TotalAssets
    ensures s.status.loadedAssets + 1 < TotalAssets ==> r == Show(Count(s, a))
    ensures s.status.loadedAssets + 1 >= TotalAssets ==>
      AllSet(r.status) && r.screen.overlayHidden &&
      r.status.loadedAssets == s.status.loadedAssets + 1 + Unset(Mark(s.status, a))
    ensures r.screen.boxes == s.screen.boxes +
      (if s.status.loadedAssets + 1 >= TotalAssets && !Mark(s.status, a).model then 1 else 0)
    ensures ShowsCounts(s, r)
    ensures r.screen.pendingReveals - s.screen.pendingReveals == r.screen.finalizeRuns - s.screen.finalizeRuns
  {
    UpdateProgress(Count(s, a))
  }

  /** One forcing line of finalizeLoading: `if (!assetStatus[type]) assetLoaded(type)`,
      with createSimpleBox() first for the model. The assets counted here and the
      flags still unset always add up to the same number. */
  function Force(s: State, a: Asset): (r: State)
    decreases Unset(s.status), 0
    ensures Untouched(s, r) && FlagsGrow(s.status, r.status) && Flag(r.status, a)
    ensures Flag(s.status, a) ==> r == s
    ensures !Flag(s.status, a) ==>
      (r.screen.finalizeRuns > s.screen.finalizeRuns <==> s.status.loadedAssets + 1 >= TotalAssets)
    ensures r.status.loadedAssets + Unset(r.status) == s.status.loadedAssets + Unset(s.status)
    ensures r.screen.boxes == s.screen.boxes + (if !s.status.model && r.status.model then 1 else 0)
    ensures r.screen.finalizeRuns >= s.screen.finalizeRuns
    ensures ShowsCounts(s, r)
    ensures r.screen.pendingReveals - s.screen.pendingReveals == r.screen.finalizeRuns - s.screen.finalizeRuns
  {
    if Flag(s.status, a) then s
    else if a == Model then AssetLoaded(CreateSimpleBox(s), Model)
    else AssetLoaded(s, a)
  }

  /** finalizeLoading: force every unset asset through assetLoaded (creating the
      placeholder box first for the model), hide the loading screen and schedule
      its removal. The nested assetLoaded calls may re-enter finalizeLoading. */
  function FinalizeLoading(s: State): (r: State)
    decreases Unset(s.status), 1
    ensures Untouched(s, r)
    ensures AllSet(r.status) && r.screen.overlayHidden && r.screen.finalizeRuns > s.screen.finalizeRuns
    ensures r.status.loadedAssets == s.status.loadedAssets + Unset(s.status)
    ensures r.screen.boxes == s.screen.boxes + (if s.status.model then 0 else 1)
    ensures ShowsCounts(s, r)
    ensures r.screen.pendingReveals - s.screen.pendingReveals == r.screen.finalizeRuns - s.screen.finalizeRuns
  {
    var s0 := s.(screen := s.screen.(finalizeRuns := s.screen.finalizeRuns + 1));
    var s1 := Force(s0, Panorama);
    var s2 := Force(s1, Model);
    var s3 := Force(s2, Audio);
    ShowsCountsTrans(s, s1, s2);
    ShowsCountsTrans(s, s2, s3);
    HideOverlay(s3)
  }

  /** finalizeLoading as the states its forcing lines pass through, for the methods
      that run those lines one at a time. */
  lemma FinalizeSteps(s: State, s0: State, s1: State, s2: State, s3: State)
    requires s0 == s.(screen := s.screen.(finalizeRuns := s.screen.finalizeRuns + 1))
    requires s1 == Force(s0, Panorama) && s2 == Force(s1, Model) && s3 == Force(s2, Audio)
    ensures FinalizeLoading(s) == HideOverlay(s3)
  {
  }

  /** assetError: record the error, count the asset as processed, update the progress.
      The asset's own flag is not set. */
  function AssetError(s: State, a: Asset, e: string): (r: State)
    ensures r.host == s.host && ShowsCounts(s, r) && Grows(s, r)
    ensures r.screen.pendingReveals - s.screen.pendingReveals == r.screen.finalizeRuns - s.screen.finalizeRuns
    ensures r.status.errors == s.status.errors + [ErrorEntry(a, e)] && r.status.hasErrors
    ensures FlagsGrow(s.status, r.status) && r.screen.finalizeRuns >= s.screen.finalizeRuns
    ensures r.screen.finalizeRuns > s.screen.finalizeRuns <==> s.status.loadedAssets + 1 >= TotalAssets
    ensures s.status.loadedAssets + 1 < TotalAssets ==>
      r.status == s.status.(loadedAssets := s.status.loadedAssets + 1, hasErrors := true,
                            errors := s.status.errors + [ErrorEntry(a, e)]) &&
      r.screen.overlayHidden == s.screen.overlayHidden && r.screen.boxes == s.screen.boxes
    ensures s.status.loadedAssets + 1 >= TotalAssets ==>
      AllSet(r.status) && r.screen.overlayHidden &&
      r.status.loadedAssets == s.status.loadedAssets + 1 + Unset(s.status)
  {
    var st := s.status;
    UpdateProgress(s.(status := st.(errors := st.errors + [ErrorEntry(a, e)], hasErrors := true,
                                    loadedAssets := st.loadedAssets + 1)))
  }
}
